=== FILE: README.md ===
# Fire Danger Index — a Dafny model

This project models the scoring core of FireShieldAPI. The core has two parts:

- **Rain history.** `get_days_since_last_rain` takes an hourly rain series and reduces it to three values: the last wet day, the rain on that day, and the days elapsed since then. A dry window gives no day, no amount and the look-back length.
- **Fire Danger Index.** `fdi` computes the score from temperature, humidity, wind, days since rain and the amount of the last rain. It takes a burn index (a linear formula in temperature and humidity), adds a wind bonus from a staircase, multiplies by a rain-recovery factor from a 13-band table, and rounds the result.

The repository has two hand-written versions of the index:

- `fire_danger_index.py` writes the wind bonus and the rain multiplier as long if/elif cascades.
- `fdi.py` writes them as a walk over a threshold list and as a band table whose lookup is clamped to the last entry.

Both are modelled as pure functions, each in the shape its file uses:

- `FireDangerIndex.Multiplier` keeps the 13-band cascade branch for branch.
- `Fdi.StepBonus` and `Fdi.Lookup` are the two `for` loops of `fdi.py`, written as recursive searches over sequences. What they compute is stated by the lemmas about them: the `Fdi.StepBonus*` rows for the first, and the `Fdi.Lookup*` rows with `Fdi.AdjustmentFactor` for the second.

The `Variants` module proves that the two versions compute the same index, except on two input clamps: days ≤ 0, and winds strictly between 2 and 3 km/h. "## Findings" argues that both clamps are defects of `fire_danger_index.py`. The two `wind_factor` functions also differ on negative winds, but neither `fdi` passes them one: both raise such a wind to 3 km/h.

Modules and files:

| file | module | models |
|---|---|---|
| `wrappers.dfy` | `Wrappers` | `Option`, for Python's `None` |
| `formula.dfy` | `Formula` | the burn index and Python's `round` (ties to even), shared by both variants |
| `rain_history.dfy` | `RainHistory` | lines 36-46 of `get_days_since_last_rain` (the same in both files) |
| `fire_danger_index.dfy` | `FireDangerIndex` | `wind_factor` and `fdi` of `fire_danger_index.py` |
| `fdi.dfy` | `Fdi` | `wind_factor`, `get_adjustment_factor` and `fdi` of `fdi.py` |
| `variants.dfy` | `Variants` | where the two variants agree and where they differ |

Modelling choices:

- A rain sample is `(day, amount)`. `day` is the UTC day number that pandas' daily resampling assigns to the hour. The current UTC date is the parameter `today`.
- All quantities are exact `real`s. `days_rain` is an `int`, as the docstrings say and as `.days` returns.
- Python's list indexing in `factors[index]` is modelled exactly. A negative index counts from the end. An index out of range is `None`, which stands for `IndexError`.
- In the cascade, `Multiplier` returns `None` when no branch fires. `fdi_value` then keeps its initial 0.
- An empty series is not an error: like a dry one, it gives `(None, None, lookback_days)`.
- pandas' `resample("D").sum()` creates a row for every day from the first sample to the last, with 0 for days that have no sample. `Resample` keeps only the days that occur in the series. The result is the same: a 0 total is never wet, and with the contiguous `pd.date_range` timestamps the two sets of days coincide.

## Model

| member | source | states |
|---|---|---|
| `RainHistory.Resample` | fire_danger_index.py:36-37 | the daily resampling has one entry per day present in the series, holding the sum of that day's amounts (`DayTotal`) |
| `RainHistory.LatestWetDay` | fire_danger_index.py:39-44 | finds no day exactly when no day has a positive total; otherwise finds a wet day that is not earlier than any other wet day |
| `RainHistory.DaysSinceLastRain` | fire_danger_index.py:36-46 | a dry series (no day with total > 0) gives `(None, None, lookback_days)`; otherwise gives the latest wet day, that day's total, and `today - day` |
| `RainHistory.DryWindow` | fire_danger_index.py:39-41 | an all-zero series gives no day, no amount and the look-back length |
| `RainHistory.DaysSinceRainNonNegative` | fire_danger_index.py:43-46 | when every sample is dated no later than today, the day count is never negative |
| `RainHistory.SingleWetDay` | fdi.py:36-46 | when rain fell on one day `d` only, the result is `d`, its total, and `today - d` |
| `Formula.BurnIndex` | fdi.py:79-87 | the burn index equals (6.7·(t−3) + 2.6·(90−h)) / 6.6, the mean of the temperature and humidity factors divided by 3.3 |
| `Formula.BurnIndexMonotone` | fire_danger_index.py:96-107 | the burn index rises with temperature and falls with humidity |
| `Formula.RoundHalfEven` | fdi.py:91 | `round` gives an integer within 1/2 of its argument, and at an exact half it gives the even neighbour |
| `Formula.RoundHalfEvenUnique` | fire_danger_index.py:392 | those two properties determine the rounded value uniquely |
| `FireDangerIndex.WindFactor` | fire_danger_index.py:48-76 | the bonus added is one of 0, 5, …, 40; it is 0 on [0, 3); a negative wind, or one of 46 or more, gets +40 |
| `FireDangerIndex.WindFactorMonotone` | fire_danger_index.py:59-76 | for non-negative winds, a stronger wind never gets a smaller bonus |
| `FireDangerIndex.Multiplier` | fire_danger_index.py:112-390 | every multiplier the cascade can pick lies in [0, 1]; a positive rain with at least one day since rain always reaches a branch |
| `FireDangerIndex.Clamp` | fire_danger_index.py:99-104 | after clamping, rain > 0 and days ≥ 1; rain ≤ 0 becomes 1; days ≤ 0 become 21; wind ≤ 2 becomes 3; a wind above 2 is kept, so a wind in (2, 3) stays below 3 |
| `FireDangerIndex.Fdi` | fire_danger_index.py:79-392 | with days ≤ 0 the multiplier is 1 in every band, so the index is the rounded wind factor |
| `FireDangerIndex.BandEdges` | fire_danger_index.py:114-390 | bands are half-open: 2.7 mm reads the [2.7, 5.3) row and not the first; rain ≥ 76.6 mm reads the last row |
| `FireDangerIndex.FdiExamples` | fire_danger_index.py:93 | the documented calls give `fdi(10, 50, 10, 1, 20) = 7` and `fdi(40, 30, 30, 15, 5) = 81` |
| `FireDangerIndex.WindGapNotMonotone` | fire_danger_index.py:103-104 | a wind of 2 km/h scores 28 while 2.5 km/h scores 23 (10 °C, 50 %, 5 days, 1 mm) |
| `FireDangerIndex.RainTodayScoresAsDry` | fire_danger_index.py:101-102 | rain today (0 days) scores 33 while rain one day ago scores 7 (10 °C, 50 %, 10 km/h, 20 mm) |
| `Fdi.StepBonusFirst` | fdi.py:49-51 | the walk returns the bonus paired with the first threshold strictly greater than the wind |
| `Fdi.StepBonusBeyond` | fdi.py:52 | a wind that reaches every threshold gets the bonus 40 |
| `Fdi.StepBonusMonotone` | fdi.py:48-52 | on thresholds that rise and bonuses that do not fall, a stronger wind never gets a smaller bonus |
| `Fdi.WindStepsStaircase` | fdi.py:49 | the shipped thresholds strictly increase; the bonuses do not decrease and stay ≤ 40 |
| `Fdi.StepBonusStaircase` | fdi.py:49-52 | the walk over the shipped thresholds equals the closed-form bonus for every real wind: 0 below 3 km/h (negative winds included), then 5, …, 35 on [3, 9), …, [42, 46), and 40 from 46 on |
| `Fdi.WindFactor` | fdi.py:48-52 | `wind_factor` is the burn index plus that closed-form staircase bonus |
| `Fdi.WindFactorMonotone` | fdi.py:48-52 | the wind factor never decreases as the wind rises, over all reals |
| `Fdi.PyIndex` | fdi.py:74-75 | Python indexing: non-negative indices read directly; indices in [−len, 0) count from the end; anything else is an error |
| `Fdi.LookupFirst` | fdi.py:72-75 | the loop answers `factors[min(days − 1, len − 1)]` from the first band that holds the rain |
| `Fdi.LookupMissing` | fdi.py:76 | rain that lies in no band gives 1.0 |
| `Fdi.NegativeRainInNoBand` | fdi.py:56-76 | every band starts at 0 or above, so negative rain gives 1.0 |
| `Fdi.LookupDefined` | fdi.py:72-75 | with well-formed rows and days ≥ 1, the lookup never raises and stays in [0, 1] |
| `Fdi.AdjustmentFactor` | fdi.py:54-76 | with days ≥ 1 the factor exists and lies in [0, 1]; negative rain gives 1.0 |
| `Fdi.TableWellFormed` | fdi.py:56-70 | 13 bands; the first starts at 0 and the last is unbounded; each high equals the next low; every row has entries in [0, 1], does not decrease, and ends in 1.0 |
| `Fdi.RowsAtMost21` | fdi.py:56-70 | no row has more than 21 entries |
| `Fdi.BandContaining` | fdi.py:56-73 | every non-negative rain lies in exactly one band |
| `Fdi.AdjustmentInBand` | fdi.py:72-75 | for rain in band k and days ≥ 1, the result is that row's `factors[min(days − 1, len − 1)]` |
| `Fdi.AdjustmentMonotoneInDays` | fdi.py:56-75 | for days ≥ 1, more days since rain never give a smaller factor |
| `Fdi.AdjustmentPlateau` | fdi.py:74 | once days reach the end of the band's row, the factor is the last entry, 1.0 |
| `Fdi.AdjustmentFullRecovery` | fdi.py:56-75 | from 21 days on, every rain gives 1.0 |
| `Fdi.AdjustmentNonPositiveDays` | fdi.py:74-75 | called directly, days = 0 reads index −1, the last entry (1.0); days ≤ −21 is an index error |
| `Fdi.Clamp` | fdi.py:82-84 | after `max`, rain ≥ 1, days ≥ 1 and wind ≥ 3, so the table index is never negative and the wind bonus is at least 5; values already above a floor are kept |
| `Fdi.Fdi` | fdi.py:78-91 | the multiplier pulls the rounded wind factor towards 0 without crossing it: 0 ≤ fdi ≤ round(wind factor) when the wind factor is ≥ 0, and the mirror image when it is ≤ 0 |
| `Fdi.FdiInBand` | fdi.py:78-91 | for `max(rain, 1)` in band k: fdi = round((burn index + the closed-form staircase bonus at `max(wind, 3)`) × `factors[min(max(days, 1) − 1, len − 1)]` of that band) |
| `Fdi.FdiMonotoneInWind` | fdi.py:84-91 | a stronger wind never lowers the index |
| `Fdi.FdiMonotoneInDays` | fdi.py:83-91 | where the wind factor at `max(wind, 3)` is ≥ 0, more days since rain never lower the index, over every day count including 0 and negative ones; with `FdiAntitoneInDays` this covers every input |
| `Fdi.FdiAntitoneInDays` | fdi.py:83-91 | the mirror case: where the wind factor at `max(wind, 3)` is ≤ 0, more days since rain never raise the index |
| `Fdi.FdiExamples` | fire_danger_index.py:93 | the two documented calls, applied to `fdi.py`'s version, give `fdi(10, 50, 10, 1, 20) = 7` and `fdi(40, 30, 30, 15, 5) = 81`; with rain 0 mm and 90 days the same readings give 33 and 81 |
| `Variants.WindFactorsAgree` | fdi.py:48-52 | for every wind ≥ 0, the threshold walk equals the if/elif staircase |
| `Variants.NegativeWindDiffers` | fire_danger_index.py:59-76 | a negative wind gets +40 in the cascade and +0 in the table |
| `Variants.MultiplierInBand` | fire_danger_index.py:114-390 | in band k, for rain > 0 and days ≥ 1, the cascade picks the table row's `factors[min(days − 1, len − 1)]` |
| `Variants.MultipliersAgree` | fdi.py:54-76 | for rain > 0 and integer days ≥ 1, the cascade multiplier equals `get_adjustment_factor` |
| `Variants.CascadeMultiplierMonotone` | fire_danger_index.py:114-390 | for rain > 0, the cascade multiplier never decreases as days grow from 1 |
| `Variants.CascadeMultiplierPlateau` | fire_danger_index.py:114-390 | past the band's last explicit day, the cascade multiplier is 1 |
| `Variants.ClampedRainSameMultiplier` | fdi.py:82 | rain in (0, 1) is kept by the cascade but raised to 1 by the table; both lie in the first band and get the same multiplier |
| `Variants.FdiVariantsAgree` | fdi.py:78-91 | both variants give the same index when days ≥ 1 and the wind is not strictly between 2 and 3 |
| `Variants.NonPositiveDaysDiffer` | fdi.py:83 | for days ≤ 0, the cascade scores as if 21 days had passed and the table as if 1 day had |
| `Variants.WindGapDiffers` | fdi.py:84 | for a wind in (2, 3), the table scores as at 3 km/h and the cascade never scores higher |

## Left out

- Fetching the weather archive is not modelled: the Open-Meteo client, `requests_cache`, the retry session and the `pd.date_range` timestamps (lines 8-34 of both files). This is network I/O. The model takes a sequence of day-indexed samples instead.
- `datetime.now` (line 45) is not modelled. It reads the clock, so the model takes a `today` parameter instead.
- `rain.py` repeats the same fetch and reduction at module level with prints. It is all I/O.
- `model.py`, `data_loader.py`, `main.py`, `test.py` and `export_model.py` are not part of this model: the classifier training, the web endpoint and the model export. They wrap libraries whose code is not visible here.
- Floating point is not modelled. Values such as 6.7, 2.6, 3.3 and 0.7 are exact reals here, not binary doubles. The model does not claim to match Python exactly where a value lands on a .5 tie after rounding.
- NaN inputs are not modelled. `float("inf")` becomes an unbounded last band.
- Non-integer `days_rain` is not modelled. The cascade tests explicit days with `==`, but a fractional count is still caught by the first band's `else`, by every `elif days_rain > N` and by the last band's `else`, all of which give multiplier 1. So a fractional count leaves `fdi_value` at 0 only in bands 2-12, and only below the band's last explicit day. In `fdi.py`, `min(days_rain - 1, len - 1)` would then be a float index, which raises TypeError unless it clamps to `len - 1`.
- The five danger categories (0-20 … above 75) appear only in comments, not in code, so they are not modelled.
- The `__main__` print blocks are not modelled. In them, a dry window makes `get_days_since_last_rain` return `None` as the rain amount, and that `None` is passed to `fdi`. Python 3 then raises TypeError, at `max(rain, 1)` (fdi.py:82) or at `rain <= 0` (fire_danger_index.py:99). The modelled `fdi` takes a real amount, so this failing path is not represented. Every amount the reduction does report is positive.

## Findings

| source | as written | input that shows it | evidently intended | confidence | as-written member | corrected member |
|---|---|---|---|---|---|---|
| fire_danger_index.py:103-104 | `if wind <= 2: wind = 3` leaves a wind in (2, 3) unchanged, so it gets bonus 0 while 2 km/h gets bonus 5 | `fdi(10, 50, 2.5, 5, 1) = 23` but `fdi(10, 50, 2, 5, 1) = 28` | floor the wind at 3, as `max(wind, 3)` does in fdi.py:84, so the index is monotone in wind | medium; not executed | `FireDangerIndex.WindGapNotMonotone` | `Fdi.FdiMonotoneInWind` |
| fire_danger_index.py:101-102 | `if days_rain <= 0: days_rain = 21` scores rain today (0 days, which `get_days_since_last_rain` returns) as 21 dry days | `fdi(10, 50, 10, 0, 20) = 33` but `fdi(10, 50, 10, 1, 20) = 7` | floor the days at 1, as fdi.py:83 does, so rain today suppresses the index at least as much as rain yesterday | medium; not executed | `FireDangerIndex.RainTodayScoresAsDry` | `Fdi.FdiMonotoneInDays` |

=== FILE: fdi.dfy ===
/**
 * The table variant of the Fire Danger Index (fdi.py): the wind bonus is a
 * search over (threshold, bonus) pairs and the rain-recovery multiplier a
 * lookup in a table of 13 rain bands, each a list of multipliers indexed by
 * the days since rain and clamped to its last entry.
 */
module Fdi {
  import opened Wrappers
  import opened Formula

  // ---------------------------------------------------------------------
  // Wind staircase
  // ---------------------------------------------------------------------

  /** The thresholds `wind_factor` walks, in km/h. */
  const WindThresholds: seq<real> := [3.0, 9.0, 17.0, 26.0, 33.0, 37.0, 42.0, 46.0]

  /** The bonus paired with each threshold. */
  const WindBonuses: seq<real> := [0.0, 5.0, 10.0, 15.0, 20.0, 25.0, 30.0, 35.0]

  /** The bonus when the wind reaches every threshold. */
  const TopBonus: real := 40.0

  /**
   * The loop over `zip(thresholds, bonuses)`: the bonus of the first pair
   * whose threshold is strictly above the wind; the top bonus when there is
   * none. `zip` stops at the shorter list.
   */
  function StepBonus(thresholds: seq<real>, bonuses: seq<real>, wind: real): (bonus: real)
  {
    if thresholds == [] || bonuses == [] then TopBonus
    else if wind < thresholds[0] then bonuses[0]
    else StepBonus(thresholds[1..], bonuses[1..], wind)
  }

  /** Thresholds strictly increase; bonuses do not decrease and stay within the top bonus. */
  predicate Staircase(thresholds: seq<real>, bonuses: seq<real>)
  {
    && |thresholds| == |bonuses|
    && (forall i :: 0 < i < |thresholds| ==> thresholds[i - 1] < thresholds[i])
    && (forall i :: 0 < i < |bonuses| ==> bonuses[i - 1] <= bonuses[i])
    && (forall i :: 0 <= i < |bonuses| ==> bonuses[i] <= TopBonus)
  }

  /** The search returns the bonus of the first threshold above the wind. */
  lemma {:induction false} StepBonusFirst(thresholds: seq<real>, bonuses: seq<real>, wind: real, k: nat)
    requires k < |thresholds| && k < |bonuses| && wind < thresholds[k]
    requires forall j :: 0 <= j < k ==> thresholds[j] <= wind
    ensures StepBonus(thresholds, bonuses, wind) == bonuses[k]
  {
    if k > 0 {
      StepBonusFirst(thresholds[1..], bonuses[1..], wind, k - 1);
    }
  }

  /** A wind that reaches every threshold gets the top bonus. */
  lemma {:induction false} StepBonusBeyond(thresholds: seq<real>, bonuses: seq<real>, wind: real)
    requires forall j :: 0 <= j < |thresholds| ==> thresholds[j] <= wind
    ensures StepBonus(thresholds, bonuses, wind) == TopBonus
  {
    if thresholds != [] && bonuses != [] {
      StepBonusBeyond(thresholds[1..], bonuses[1..], wind);
    }
  }

  /** On a staircase, the bonus lies between the first bonus and the top bonus. */
  lemma {:induction false} StepBonusBounds(thresholds: seq<real>, bonuses: seq<real>, wind: real)
    requires Staircase(thresholds, bonuses) && |bonuses| > 0
    ensures bonuses[0] <= StepBonus(thresholds, bonuses, wind) <= TopBonus
  {
    if wind >= thresholds[0] && |bonuses| > 1 {
      StepBonusBounds(thresholds[1..], bonuses[1..], wind);
    }
  }

  /** On a staircase, a stronger wind never gets a smaller bonus. */
  lemma {:induction false} StepBonusMonotone(thresholds: seq<real>, bonuses: seq<real>, w1: real, w2: real)
    requires Staircase(thresholds, bonuses)
    requires w1 <= w2
    ensures StepBonus(thresholds, bonuses, w1) <= StepBonus(thresholds, bonuses, w2)
  {
    if thresholds != [] {
      if w1 >= thresholds[0] {
        StepBonusMonotone(thresholds[1..], bonuses[1..], w1, w2);
      } else if w2 >= thresholds[0] && |bonuses| > 1 {
        StepBonusBounds(thresholds[1..], bonuses[1..], w2);
      }
    }
  }

  /**
   * Reference definition of the wind bonus in closed form: 0 below 3 km/h
   * (negative winds included), then 5, 10, ..., 35 on [3, 9), [9, 17), ...,
   * [42, 46), and 40 from 46 on.
   */
  function StaircaseBonus(wind: real): (bonus: real)
  {
    if wind < 3.0 then 0.0
    else if wind < 9.0 then 5.0
    else if wind < 17.0 then 10.0
    else if wind < 26.0 then 15.0
    else if wind < 33.0 then 20.0
    else if wind < 37.0 then 25.0
    else if wind < 42.0 then 30.0
    else if wind < 46.0 then 35.0
    else 40.0
  }

  /** The walk over the shipped thresholds computes the closed-form bonus for every wind. */
  lemma StepBonusStaircase(wind: real)
    ensures StepBonus(WindThresholds, WindBonuses, wind) == StaircaseBonus(wind)
  {
    var t, b := WindThresholds, WindBonuses;
    if wind < 3.0 { StepBonusFirst(t, b, wind, 0); }
    else if wind < 9.0 { StepBonusFirst(t, b, wind, 1); }
    else if wind < 17.0 { StepBonusFirst(t, b, wind, 2); }
    else if wind < 26.0 { StepBonusFirst(t, b, wind, 3); }
    else if wind < 33.0 { StepBonusFirst(t, b, wind, 4); }
    else if wind < 37.0 { StepBonusFirst(t, b, wind, 5); }
    else if wind < 42.0 { StepBonusFirst(t, b, wind, 6); }
    else if wind < 46.0 { StepBonusFirst(t, b, wind, 7); }
    else { StepBonusBeyond(t, b, wind); }
  }

  /** `wind_factor`: the burn index plus the closed-form staircase bonus for the wind. */
  function WindFactor(wind: real, burnIndex: real): (r: real)
    ensures r == burnIndex + StaircaseBonus(wind)
  {
    StepBonusStaircase(wind);
    burnIndex + StepBonus(WindThresholds, WindBonuses, wind)
  }

  /** The thresholds and bonuses of `wind_factor` form a staircase. */
  lemma WindStepsStaircase()
    ensures Staircase(WindThresholds, WindBonuses)
  {
  }

  /** A stronger wind never lowers the wind factor. */
  lemma WindFactorMonotone(w1: real, w2: real, burnIndex: real)
    requires w1 <= w2
    ensures WindFactor(w1, burnIndex) <= WindFactor(w2, burnIndex)
  {
    WindStepsStaircase();
    StepBonusMonotone(WindThresholds, WindBonuses, w1, w2);
  }

  // ---------------------------------------------------------------------
  // Rain-recovery table
  // ---------------------------------------------------------------------

  /** Upper end of a rain band: a finite bound or `float("inf")`. */
  datatype Upper = Below(limit: real) | Unbounded

  /** A rain band [low, high) with its multipliers for days 1, 2, ... since rain. */
  datatype Band = Band(low: real, high: Upper, factors: seq<real>)

  /** `low <= rain < high`. */
  predicate InBand(b: Band, rain: real)
  {
    b.low <= rain && (b.high.Unbounded? || rain < b.high.limit)
  }

  /** Multipliers for days 1, 2, ... since rain, one row per rain band. */
  const Row0: seq<real> := [0.7, 0.9, 1.0]
  const Row1: seq<real> := [0.6, 0.8, 0.9, 1.0]
  const Row2: seq<real> := [0.5, 0.7, 0.9, 0.9, 1.0]
  const Row3: seq<real> := [0.4, 0.6, 0.8, 0.9, 0.9, 1.0]
  const Row4: seq<real> := [0.4, 0.6, 0.7, 0.8, 0.9, 0.9, 1.0]
  const Row5: seq<real> := [0.3, 0.5, 0.7, 0.8, 0.8, 0.9, 1.0]
  const Row6: seq<real> := [0.2, 0.5, 0.6, 0.7, 0.8, 0.8, 0.9, 0.9, 1.0]
  const Row7: seq<real> := [0.2, 0.4, 0.5, 0.7, 0.7, 0.8, 0.9, 0.9, 1.0]
  const Row8: seq<real> := [0.1, 0.3, 0.4, 0.6, 0.6, 0.7, 0.8, 0.8, 0.9, 0.9, 1.0]
  const Row9: seq<real> := [0.0, 0.2, 0.4, 0.5, 0.5, 0.6, 0.7, 0.7, 0.8, 0.8, 0.9, 0.9, 1.0]
  const Row10: seq<real> := [0.0, 0.2, 0.3, 0.4, 0.5, 0.6, 0.7, 0.7, 0.7, 0.7, 0.8, 0.8, 0.9, 0.9, 0.9, 1.0]
  const Row11: seq<real> := [0.0, 0.1, 0.2, 0.3, 0.4, 0.5, 0.6, 0.6, 0.7, 0.7, 0.8, 0.8, 0.8, 0.8, 0.8, 0.9, 0.9, 0.9, 0.9, 0.9, 1.0]
  const Row12: seq<real> := [0.0, 0.0, 0.1, 0.2, 0.4, 0.5, 0.6, 0.6, 0.6, 0.6, 0.7, 0.7, 0.8, 0.8, 0.8, 0.9, 0.9, 0.9, 0.9, 0.9, 1.0]

  /** The table of `get_adjustment_factor`. */
  const Bands: seq<Band> := [
    Band(0.0, Below(2.7), Row0),
    Band(2.7, Below(5.3), Row1),
    Band(5.3, Below(7.7), Row2),
    Band(7.7, Below(10.3), Row3),
    Band(10.3, Below(12.9), Row4),
    Band(12.9, Below(15.4), Row5),
    Band(15.4, Below(20.6), Row6),
    Band(20.6, Below(25.6), Row7),
    Band(25.6, Below(38.5), Row8),
    Band(38.5, Below(51.2), Row9),
    Band(51.2, Below(63.9), Row10),
    Band(63.9, Below(76.6), Row11),
    Band(76.6, Unbounded, Row12)
  ]

  function Min(a: int, b: int): (m: int)
  {
    if a <= b then a else b
  }

  /**
   * Python's `s[i]`: a negative index counts from the end; an index outside
   * [-|s|, |s|) raises IndexError, modelled as `None`.
   */
  function PyIndex(s: seq<real>, i: int): (r: Option<real>)
    ensures 0 <= i < |s| ==> r == Some(s[i])
    ensures -|s| <= i < 0 ==> r == Some(s[|s| + i])
    ensures r.None? <==> i < -|s| || i >= |s|
  {
    if 0 <= i < |s| then Some(s[i])
    else if -|s| <= i < 0 then Some(s[|s| + i])
    else None
  }

  /**
   * The loop of `get_adjustment_factor`: the first band holding the rain
   * answers `factors[min(days - 1, len(factors) - 1)]`; no band gives 1.0.
   */
  function Lookup(bands: seq<Band>, rain: real, days: int): (r: Option<real>)
  {
    if bands == [] then Some(1.0)
    else if InBand(bands[0], rain) then
      var f := bands[0].factors;
      PyIndex(f, Min(days - 1, |f| - 1))
    else Lookup(bands[1..], rain, days)
  }

  /** `get_adjustment_factor(rain, days_rain)`. */
  function AdjustmentFactor(rain: real, days: int): (r: Option<real>)
    ensures days >= 1 ==> r.Some? && 0.0 <= r.value <= 1.0
    ensures rain < 0.0 ==> r == Some(1.0)
  {
    TableWellFormed();
    LookupDefined(Bands, rain, days);
    NegativeRainInNoBand(rain, days);
    Lookup(Bands, rain, days)
  }

  /** A row: non-empty, entries in [0, 1], non-decreasing, ending in 1.0. */
  predicate RowWellFormed(f: seq<real>)
  {
    && |f| > 0
    && f[|f| - 1] == 1.0
    && (forall i :: 0 <= i < |f| ==> 0.0 <= f[i] <= 1.0)
    && (forall i :: 0 < i < |f| ==> f[i - 1] <= f[i])
  }

  /** Each band's high equals the next band's low, and every band is non-empty. */
  predicate Contiguous(bands: seq<Band>)
  {
    && (forall k :: 0 < k < |bands| ==> bands[k - 1].high == Below(bands[k].low))
    && (forall k :: 0 <= k < |bands| ==> bands[k].high.Unbounded? || bands[k].low < bands[k].high.limit)
  }

  /** The shipped table: 13 contiguous bands from 0 upwards, the last unbounded, every row well formed. */
  lemma TableWellFormed()
    ensures |Bands| == 13 && Bands[0].low == 0.0 && Bands[12].high.Unbounded?
    ensures Contiguous(Bands)
    ensures forall k :: 0 <= k < |Bands| ==> RowWellFormed(Bands[k].factors)
  {
    ShortRowsWellFormed();
    MiddleRowsWellFormed();
    LongRowsWellFormed();
    LongestRowsWellFormed();
  }

  /** The rows of the bands below 15.4 mm are well formed. */
  lemma ShortRowsWellFormed()
    ensures RowWellFormed(Row0) && RowWellFormed(Row1) && RowWellFormed(Row2)
    ensures RowWellFormed(Row3) && RowWellFormed(Row4) && RowWellFormed(Row5)
  {
  }

  /** The rows of the bands from 15.4 mm to 38.5 mm are well formed. */
  lemma MiddleRowsWellFormed()
    ensures RowWellFormed(Row6) && RowWellFormed(Row7) && RowWellFormed(Row8)
  {
  }

  /** The rows of the bands from 38.5 mm to 63.9 mm are well formed. */
  lemma LongRowsWellFormed()
    ensures RowWellFormed(Row9) && RowWellFormed(Row10)
  {
  }

  /** The rows of the two heaviest bands, from 63.9 mm up, are well formed. */
  lemma LongestRowsWellFormed()
    ensures RowWellFormed(Row11) && RowWellFormed(Row12)
  {
  }

  /** No row of the shipped table is longer than 21 entries. */
  lemma RowsAtMost21()
    ensures forall k :: 0 <= k < |Bands| ==> |Bands[k].factors| <= 21
  {
  }

  /** With well-formed rows and days >= 1, the lookup never raises IndexError and stays in [0, 1]. */
  lemma {:induction false} LookupDefined(bands: seq<Band>, rain: real, days: int)
    requires forall k :: 0 <= k < |bands| ==> RowWellFormed(bands[k].factors)
    ensures days >= 1 ==> Lookup(bands, rain, days).Some? && 0.0 <= Lookup(bands, rain, days).value <= 1.0
  {
    if bands != [] && !InBand(bands[0], rain) {
      LookupDefined(bands[1..], rain, days);
    }
  }

  /** Every band starts at 0 or above, so negative rain is in none of them. */
  lemma NegativeRainInNoBand(rain: real, days: int)
    ensures rain < 0.0 ==> Lookup(Bands, rain, days) == Some(1.0)
  {
    if rain < 0.0 {
      assert forall k :: 0 <= k < |Bands| ==> Bands[k].low >= 0.0;
      LookupMissing(Bands, rain, days);
    }
  }

  /** Rain in no band yields 1.0. */
  lemma {:induction false} LookupMissing(bands: seq<Band>, rain: real, days: int)
    requires forall k :: 0 <= k < |bands| ==> !InBand(bands[k], rain)
    ensures Lookup(bands, rain, days) == Some(1.0)
  {
    if bands != [] {
      assert !InBand(bands[0], rain);
      LookupMissing(bands[1..], rain, days);
    }
  }

  // ---------------------------------------------------------------------
  // Band selection and the lookup's results
  // ---------------------------------------------------------------------

  /** In contiguous bands, every band ends at or below the low of each later band. */
  lemma {:induction false} ContiguousOrdered(bands: seq<Band>, j: nat, k: nat)
    requires Contiguous(bands)
    requires j < k < |bands|
    ensures bands[j].high.Below? && bands[j].high.limit <= bands[k].low
    decreases k - j
  {
    assert bands[k - 1].high == Below(bands[k].low);
    if j < k - 1 {
      ContiguousOrdered(bands, j, k - 1);
      assert bands[k - 1].low < bands[k - 1].high.limit;
    }
  }

  /** The loop stops at the first band holding the rain and indexes its row. */
  lemma {:induction false} LookupFirst(bands: seq<Band>, rain: real, days: int, k: nat)
    requires k < |bands| && InBand(bands[k], rain)
    requires forall j :: 0 <= j < k ==> !InBand(bands[j], rain)
    ensures Lookup(bands, rain, days) == PyIndex(bands[k].factors, Min(days - 1, |bands[k].factors| - 1))
  {
    if k > 0 {
      assert !InBand(bands[0], rain);
      LookupFirst(bands[1..], rain, days, k - 1);
    }
  }

  /** Every non-negative rain lies in exactly one band of the shipped table. */
  lemma BandContaining(rain: real) returns (k: nat)
    requires rain >= 0.0
    ensures k < |Bands| && InBand(Bands[k], rain)
    ensures forall j :: 0 <= j < |Bands| && InBand(Bands[j], rain) ==> j == k
  {
    TableWellFormed();
    k := 0;
    while !InBand(Bands[k], rain)
      invariant k < |Bands| && Bands[k].low <= rain
      decreases |Bands| - k
    {
      k := k + 1;
    }
    forall j | 0 <= j < |Bands| && InBand(Bands[j], rain) ensures j == k {
      if j < k { ContiguousOrdered(Bands, j, k); }
      if k < j { ContiguousOrdered(Bands, k, j); }
    }
  }

  /**
   * For rain in band `k` and days >= 1, `get_adjustment_factor` returns
   * `factors[min(days - 1, len(factors) - 1)]` of that band.
   */
  lemma AdjustmentInBand(rain: real, days: int, k: nat)
    requires k < |Bands| && InBand(Bands[k], rain)
    requires days >= 1
    ensures var f := Bands[k].factors;
      AdjustmentFactor(rain, days) == Some(f[Min(days - 1, |f| - 1)])
  {
    TableWellFormed();
    forall j | 0 <= j < k ensures !InBand(Bands[j], rain) {
      ContiguousOrdered(Bands, j, k);
    }
    LookupFirst(Bands, rain, days, k);
  }

  /**
   * The multiplier does not decrease as the days since rain grow, and from
   * the end of the band's row on it is the row's last entry, 1.0.
   */
  lemma AdjustmentMonotoneInDays(rain: real, d1: int, d2: int)
    requires 1 <= d1 <= d2
    ensures AdjustmentFactor(rain, d1).value <= AdjustmentFactor(rain, d2).value
  {
    if rain >= 0.0 {
      var k := BandContaining(rain);
      AdjustmentInBand(rain, d1, k);
      AdjustmentInBand(rain, d2, k);
      TableWellFormed();
      var f := Bands[k].factors;
      RowNonDecreasing(f, Min(d1 - 1, |f| - 1), Min(d2 - 1, |f| - 1));
    }
  }

  /** A well-formed row is non-decreasing between any two positions. */
  lemma {:induction false} RowNonDecreasing(f: seq<real>, i: nat, j: nat)
    requires RowWellFormed(f)
    requires i <= j < |f|
    ensures f[i] <= f[j]
    decreases j - i
  {
    if i < j {
      RowNonDecreasing(f, i, j - 1);
    }
  }

  /** Past the end of its band's row, the multiplier is 1.0 (full recovery). */
  lemma AdjustmentPlateau(rain: real, days: int, k: nat)
    requires k < |Bands| && InBand(Bands[k], rain)
    requires days >= |Bands[k].factors|
    ensures AdjustmentFactor(rain, days) == Some(1.0)
  {
    TableWellFormed();
    AdjustmentInBand(rain, days, k);
  }

  /** No row is longer than 21 entries, so from 21 days on every band gives 1.0. */
  lemma AdjustmentFullRecovery(rain: real, days: int)
    requires days >= 21
    ensures AdjustmentFactor(rain, days) == Some(1.0)
  {
    if rain >= 0.0 {
      var k := BandContaining(rain);
      RowsAtMost21();
      AdjustmentPlateau(rain, days, k);
    }
  }

  /**
   * Called directly with days = 0, Python's index -1 reads the row's last
   * entry, so the lookup answers 1.0; from days = -21 down the index is out
   * of range and Python raises IndexError. `fdi` never does either.
   */
  lemma AdjustmentNonPositiveDays(rain: real, days: int)
    requires rain >= 0.0 && days <= 0
    ensures days == 0 ==> AdjustmentFactor(rain, days) == Some(1.0)
    ensures days <= -21 ==> AdjustmentFactor(rain, days).None?
  {
    var k := BandContaining(rain);
    TableWellFormed();
    forall j | 0 <= j < k ensures !InBand(Bands[j], rain) {
      ContiguousOrdered(Bands, j, k);
    }
    LookupFirst(Bands, rain, days, k);
    RowsAtMost21();
  }

  // ---------------------------------------------------------------------
  // The index
  // ---------------------------------------------------------------------

  /** The values `fdi` works with once it has raised low inputs to their floors. */
  datatype Clamped = Clamped(wind: real, days: int, rain: real)

  /**
   * `max(rain, 1)`, `max(days_rain, 1)`, `max(wind, 3)`: afterwards the rain
   * is at least 1, the table index `days - 1` is never negative and the wind
   * bonus is at least 5; inputs already above a floor are kept.
   */
  function Clamp(wind: real, days: int, rain: real): (c: Clamped)
    ensures c.rain >= 1.0 && c.days >= 1 && c.wind >= 3.0
    ensures rain >= 1.0 ==> c.rain == rain
    ensures rain < 1.0 ==> c.rain == 1.0
    ensures days >= 1 ==> c.days == days
    ensures days < 1 ==> c.days == 1
    ensures wind >= 3.0 ==> c.wind == wind
    ensures wind < 3.0 ==> c.wind == 3.0
    ensures StepBonus(WindThresholds, WindBonuses, c.wind) >= 5.0
  {
    var c := Clamped(if wind >= 3.0 then wind else 3.0, if days >= 1 then days else 1, if rain >= 1.0 then rain else 1.0);
    StepBonusStaircase(c.wind);
    c
  }

  /**
   * `fdi(temperature, humidity, wind, days_rain, rain)`: round((burn index +
   * wind bonus) * adjustment). Because the multiplier lies in [0, 1], recent
   * rain only pulls the index from the rounded wind factor towards 0.
   */
  function Fdi(temperature: real, humidity: real, wind: real, daysRain: int, rain: real): (r: int)
    ensures var w := WindFactor(Clamp(wind, daysRain, rain).wind, BurnIndex(temperature, humidity));
      && (w >= 0.0 ==> 0 <= r <= RoundHalfEven(w))
      && (w <= 0.0 ==> RoundHalfEven(w) <= r <= 0)
  {
    var c := Clamp(wind, daysRain, rain);
    var windFac := WindFactor(c.wind, BurnIndex(temperature, humidity));
    var adjustment := AdjustmentFactor(c.rain, c.days).value;
    RoundedTowardsZero(windFac, adjustment);
    RoundHalfEven(Adjusted(windFac, adjustment))
  }

  /** A multiplier in [0, 1] moves the rounded index towards 0 without crossing it. */
  lemma RoundedTowardsZero(w: real, a: real)
    requires 0.0 <= a <= 1.0
    ensures w >= 0.0 ==> 0 <= RoundHalfEven(Adjusted(w, a)) <= RoundHalfEven(w)
    ensures w <= 0.0 ==> RoundHalfEven(w) <= RoundHalfEven(Adjusted(w, a)) <= 0
  {
    AdjustedTowardsZero(w, a);
    RoundHalfEvenOfInteger(0);
    if w >= 0.0 {
      RoundHalfEvenMonotone(0.0, Adjusted(w, a));
      RoundHalfEvenMonotone(Adjusted(w, a), w);
    } else {
      RoundHalfEvenMonotone(w, Adjusted(w, a));
      RoundHalfEvenMonotone(Adjusted(w, a), 0.0);
    }
  }

  /**
   * `fdi` over independent definitions: for the floored rain in band `k`,
   * the index is round((burn index + closed-form bonus at max(wind, 3))
   * times the band's entry at min(max(days, 1) - 1, len - 1)).
   */
  lemma FdiInBand(temperature: real, humidity: real, wind: real, daysRain: int, rain: real, k: nat)
    requires k < |Bands| && InBand(Bands[k], if rain < 1.0 then 1.0 else rain)
    ensures var f := Bands[k].factors;
      var days := if daysRain < 1 then 1 else daysRain;
      var w := if wind < 3.0 then 3.0 else wind;
      Fdi(temperature, humidity, wind, daysRain, rain)
      == RoundHalfEven(Adjusted(BurnIndex(temperature, humidity) + StaircaseBonus(w), f[Min(days - 1, |f| - 1)]))
  {
    var c := Clamp(wind, daysRain, rain);
    var f := Bands[k].factors;
    FdiUnfold(temperature, humidity, wind, daysRain, rain);
    AdjustmentInBand(c.rain, c.days, k);
    assert AdjustmentFactor(c.rain, c.days).value == f[Min(c.days - 1, |f| - 1)];
  }

  /** `fdi` unfolded: the rounded product of the wind factor and the multiplier. */
  lemma FdiUnfold(temperature: real, humidity: real, wind: real, daysRain: int, rain: real)
    ensures var c := Clamp(wind, daysRain, rain);
      Fdi(temperature, humidity, wind, daysRain, rain)
      == RoundHalfEven(Adjusted(WindFactor(c.wind, BurnIndex(temperature, humidity)), AdjustmentFactor(c.rain, c.days).value))
  {
  }

  /** A stronger wind never lowers the index. */
  lemma FdiMonotoneInWind(temperature: real, humidity: real, w1: real, w2: real, daysRain: int, rain: real)
    requires w1 <= w2
    ensures Fdi(temperature, humidity, w1, daysRain, rain) <= Fdi(temperature, humidity, w2, daysRain, rain)
  {
    var c1, c2 := Clamp(w1, daysRain, rain), Clamp(w2, daysRain, rain);
    var b := BurnIndex(temperature, humidity);
    var f1, f2 := WindFactor(c1.wind, b), WindFactor(c2.wind, b);
    var a := AdjustmentFactor(c1.rain, c1.days).value;
    FdiUnfold(temperature, humidity, w1, daysRain, rain);
    FdiUnfold(temperature, humidity, w2, daysRain, rain);
    WindFactorMonotone(c1.wind, c2.wind, b);
    AdjustedMonotoneInWindFactor(f1, f2, a);
    RoundHalfEvenMonotone(Adjusted(f1, a), Adjusted(f2, a));
  }

  /**
   * Where the wind factor at `max(wind, 3)` is at least 0, more days since
   * rain never lower the index, over every day count including 0 and
   * negative ones. With `FdiAntitoneInDays` this covers every input.
   */
  lemma FdiMonotoneInDays(temperature: real, humidity: real, wind: real, d1: int, d2: int, rain: real)
    requires WindFactor(if wind < 3.0 then 3.0 else wind, BurnIndex(temperature, humidity)) >= 0.0
    requires d1 <= d2
    ensures Fdi(temperature, humidity, wind, d1, rain) <= Fdi(temperature, humidity, wind, d2, rain)
  {
    var c1, c2 := Clamp(wind, d1, rain), Clamp(wind, d2, rain);
    var f := WindFactor(c1.wind, BurnIndex(temperature, humidity));
    var a1, a2 := AdjustmentFactor(c1.rain, c1.days).value, AdjustmentFactor(c2.rain, c2.days).value;
    FdiUnfold(temperature, humidity, wind, d1, rain);
    FdiUnfold(temperature, humidity, wind, d2, rain);
    AdjustmentMonotoneInDays(c1.rain, c1.days, c2.days);
    assert f >= 0.0;
    AdjustedMonotoneInMultiplier(f, a1, a2);
    RoundHalfEvenMonotone(Adjusted(f, a1), Adjusted(f, a2));
  }

  /**
   * The mirror case: where the wind factor is at most 0, more days since
   * rain never raise the index, since the multiplier grows towards 1 and
   * pulls the index less towards 0.
   */
  lemma FdiAntitoneInDays(temperature: real, humidity: real, wind: real, d1: int, d2: int, rain: real)
    requires WindFactor(if wind < 3.0 then 3.0 else wind, BurnIndex(temperature, humidity)) <= 0.0
    requires d1 <= d2
    ensures Fdi(temperature, humidity, wind, d2, rain) <= Fdi(temperature, humidity, wind, d1, rain)
  {
    var c1, c2 := Clamp(wind, d1, rain), Clamp(wind, d2, rain);
    var f := WindFactor(c1.wind, BurnIndex(temperature, humidity));
    var a1, a2 := AdjustmentFactor(c1.rain, c1.days).value, AdjustmentFactor(c2.rain, c2.days).value;
    FdiUnfold(temperature, humidity, wind, d1, rain);
    FdiUnfold(temperature, humidity, wind, d2, rain);
    AdjustmentMonotoneInDays(c1.rain, c1.days, c2.days);
    AdjustedAntitoneInMultiplier(f, a1, a2);
    RoundHalfEvenMonotone(Adjusted(f, a2), Adjusted(f, a1));
  }

  /**
   * The two calls of the source's documentation, `fdi(10, 50, 10, 1, 20)`
   * and `fdi(40, 30, 30, 15, 5)`, and the same readings with 0 mm of rain
   * 90 days ago: the rain is raised to 1 mm and the multiplier is 1.
   */
  lemma FdiExamples()
    ensures Fdi(10.0, 50.0, 10.0, 1, 20.0) == 7
    ensures Fdi(40.0, 30.0, 30.0, 15, 5.0) == 81
    ensures Fdi(10.0, 50.0, 10.0, 90, 0.0) == 33
    ensures Fdi(40.0, 30.0, 30.0, 90, 0.0) == 81
  {
    AdjustmentInBand(20.0, 1, 6);
    AdjustmentInBand(5.0, 15, 1);
    AdjustmentInBand(1.0, 90, 0);
  }
}

=== FILE: fire_danger_index.dfy ===
/**
 * The cascade variant of the Fire Danger Index (fire_danger_index.py):
 * the wind bonus is an if/elif staircase and the rain-recovery multiplier a
 * cascade over 13 rain bands and the days since rain.
 */
module FireDangerIndex {
  import opened Wrappers
  import opened Formula

  /**
   * `wind_factor`: adds to the burn index a bonus of 0 to 40 chosen by the
   * wind band; a wind below every band (negative) falls through to +40.
   */
  function WindFactor(wind: real, burnIndex: real): (r: real)
    ensures r - burnIndex in {0.0, 5.0, 10.0, 15.0, 20.0, 25.0, 30.0, 35.0, 40.0}
    ensures 0.0 <= wind < 3.0 ==> r == burnIndex
    ensures wind < 0.0 || wind >= 46.0 ==> r == burnIndex + 40.0
  {
    if 0.0 <= wind && wind < 3.0 then burnIndex + 0.0
    else if 3.0 <= wind && wind < 9.0 then burnIndex + 5.0
    else if 9.0 <= wind && wind < 17.0 then burnIndex + 10.0
    else if 17.0 <= wind && wind < 26.0 then burnIndex + 15.0
    else if 26.0 <= wind && wind < 33.0 then burnIndex + 20.0
    else if 33.0 <= wind && wind < 37.0 then burnIndex + 25.0
    else if 37.0 <= wind && wind < 42.0 then burnIndex + 30.0
    else if 42.0 <= wind && wind < 46.0 then burnIndex + 35.0
    else burnIndex + 40.0
  }

  /** Over non-negative winds the bonus never decreases as the wind rises. */
  lemma WindFactorMonotone(w1: real, w2: real, burnIndex: real)
    requires 0.0 <= w1 <= w2
    ensures WindFactor(w1, burnIndex) <= WindFactor(w2, burnIndex)
  {
  }

  /**
   * The rain-recovery multiplier that the cascade multiplies the wind
   * factor by; `None` when no branch fires and `fdi_value` keeps its
   * initial 0. Every multiplier lies in [0, 1], and every positive rain with
   * a day count of at least 1 reaches a branch.
   */
  function Multiplier(rain: real, days: int): (r: Option<real>)
    ensures r.Some? ==> 0.0 <= r.value <= 1.0
    ensures rain > 0.0 && days >= 1 ==> r.Some?
  {
    if 0.0 < rain && rain < 2.7 then (
      if days == 1 then Some(0.7)
      else if days == 2 then Some(0.9)
      else Some(1.0))
    else if 2.7 <= rain && rain < 5.3 then (
      if days == 1 then Some(0.6)
      else if days == 2 then Some(0.8)
      else if days == 3 then Some(0.9)
      else if days > 3 then Some(1.0)
      else None)
    else if 5.3 <= rain && rain < 7.7 then (
      if days == 1 then Some(0.5)
      else if days == 2 then Some(0.7)
      else if days == 3 then Some(0.9)
      else if days == 4 then Some(0.9)
      else if days > 4 then Some(1.0)
      else None)
    else if 7.7 <= rain && rain < 10.3 then (
      if days == 1 then Some(0.4)
      else if days == 2 then Some(0.6)
      else if days == 3 then Some(0.8)
      else if days == 4 then Some(0.9)
      else if days == 5 then Some(0.9)
      else if days > 5 then Some(1.0)
      else None)
    else if 10.3 <= rain && rain < 12.9 then (
      if days == 1 then Some(0.4)
      else if days == 2 then Some(0.6)
      else if days == 3 then Some(0.7)
      else if days == 4 then Some(0.8)
      else if days == 5 then Some(0.9)
      else if days == 6 then Some(0.9)
      else if days > 6 then Some(1.0)
      else None)
    else if 12.9 <= rain && rain < 15.4 then (
      if days == 1 then Some(0.3)
      else if days == 2 then Some(0.5)
      else if days == 3 then Some(0.7)
      else if days == 4 then Some(0.8)
      else if days == 5 then Some(0.8)
      else if days == 6 then Some(0.9)
      else if days > 6 then Some(1.0)
      else None)
    else if 15.4 <= rain && rain < 20.6 then (
      if days == 1 then Some(0.2)
      else if days == 2 then Some(0.5)
      else if days == 3 then Some(0.6)
      else if days == 4 then Some(0.7)
      else if days == 5 then Some(0.8)
      else if days == 6 then Some(0.8)
      else if days == 7 then Some(0.9)
      else if days == 8 then Some(0.9)
      else if days > 8 then Some(1.0)
      else None)
    else if 20.6 <= rain && rain < 25.6 then (
      if days == 1 then Some(0.2)
      else if days == 2 then Some(0.4)
      else if days == 3 then Some(0.5)
      else if days == 4 then Some(0.7)
      else if days == 5 then Some(0.7)
      else if days == 6 then Some(0.8)
      else if days == 7 then Some(0.9)
      else if days == 8 then Some(0.9)
      else if days > 8 then Some(1.0)
      else None)
    else if 25.6 <= rain && rain < 38.5 then (
      if days == 1 then Some(0.1)
      else if days == 2 then Some(0.3)
      else if days == 3 then Some(0.4)
      else if days == 4 then Some(0.6)
      else if days == 5 then Some(0.6)
      else if days == 6 then Some(0.7)
      else if days == 7 then Some(0.8)
      else if days == 8 then Some(0.8)
      else if days == 9 then Some(0.9)
      else if days == 10 then Some(0.9)
      else if days > 10 then Some(1.0)
      else None)
    else if 38.5 <= rain && rain < 51.2 then (
      if days == 1 then Some(0.0)
      else if days == 2 then Some(0.2)
      else if days == 3 then Some(0.4)
      else if days == 4 then Some(0.5)
      else if days == 5 then Some(0.5)
      else if days == 6 then Some(0.6)
      else if days == 7 then Some(0.7)
      else if days == 8 then Some(0.7)
      else if days == 9 then Some(0.8)
      else if days == 10 then Some(0.8)
      else if days == 11 then Some(0.9)
      else if days == 12 then Some(0.9)
      else if days > 12 then Some(1.0)
      else None)
    else if 51.2 <= rain && rain < 63.9 then (
      if days == 1 then Some(0.0)
      else if days == 2 then Some(0.2)
      else if days == 3 then Some(0.3)
      else if days == 4 then Some(0.4)
      else if days == 5 then Some(0.5)
      else if days == 6 then Some(0.6)
      else if days == 7 then Some(0.7)
      else if days == 8 then Some(0.7)
      else if days == 9 then Some(0.7)
      else if days == 10 then Some(0.7)
      else if days == 11 then Some(0.8)
      else if days == 12 then Some(0.8)
      else if days == 13 then Some(0.9)
      else if days == 14 then Some(0.9)
      else if days == 15 then Some(0.9)
      else if days > 15 then Some(1.0)
      else None)
    else if 63.9 <= rain && rain < 76.6 then (
      if days == 1 then Some(0.0)
      else if days == 2 then Some(0.1)
      else if days == 3 then Some(0.2)
      else if days == 4 then Some(0.3)
      else if days == 5 then Some(0.4)
      else if days == 6 then Some(0.5)
      else if days == 7 then Some(0.6)
      else if days == 8 then Some(0.6)
      else if days == 9 then Some(0.7)
      else if days == 10 then Some(0.7)
      else if days == 11 then Some(0.8)
      else if days == 12 then Some(0.8)
      else if days == 13 then Some(0.8)
      else if days == 14 then Some(0.8)
      else if days == 15 then Some(0.8)
      else if days == 16 then Some(0.9)
      else if days == 17 then Some(0.9)
      else if days == 18 then Some(0.9)
      else if days == 19 then Some(0.9)
      else if days == 20 then Some(0.9)
      else if days > 20 then Some(1.0)
      else None)
    else if rain >= 76.6 then (
      if days == 1 then Some(0.0)
      else if days == 2 then Some(0.0)
      else if days == 3 then Some(0.1)
      else if days == 4 then Some(0.2)
      else if days == 5 then Some(0.4)
      else if days == 6 then Some(0.5)
      else if days == 7 then Some(0.6)
      else if days == 8 then Some(0.6)
      else if days == 9 then Some(0.6)
      else if days == 10 then Some(0.6)
      else if days == 11 then Some(0.7)
      else if days == 12 then Some(0.7)
      else if days == 13 then Some(0.8)
      else if days == 14 then Some(0.8)
      else if days == 15 then Some(0.8)
      else if days == 16 then Some(0.9)
      else if days == 17 then Some(0.9)
      else if days == 18 then Some(0.9)
      else if days == 19 then Some(0.9)
      else if days == 20 then Some(0.9)
      else Some(1.0))
    else None
  }

  /** The values `fdi` works with once it has replaced out-of-range inputs. */
  datatype Clamped = Clamped(wind: real, days: int, rain: real)

  /**
   * The replacements `fdi` makes before the lookup: rain <= 0 becomes 1,
   * days <= 0 become 21 and wind <= 2 becomes 3. A wind strictly between 2
   * and 3 is kept.
   */
  function Clamp(wind: real, days: int, rain: real): (c: Clamped)
    ensures c.rain > 0.0 && c.days >= 1 && (c.wind >= 3.0 || 2.0 < c.wind < 3.0)
    ensures rain > 0.0 ==> c.rain == rain
    ensures rain <= 0.0 ==> c.rain == 1.0
    ensures days >= 1 ==> c.days == days
    ensures days <= 0 ==> c.days == 21
    ensures wind > 2.0 ==> c.wind == wind
    ensures wind <= 2.0 ==> c.wind == 3.0
  {
    Clamped(if wind <= 2.0 then 3.0 else wind,
            if days <= 0 then 21 else days,
            if rain <= 0.0 then 1.0 else rain)
  }

  /**
   * `fdi(temperature, humidity, wind, days_rain, rain)`. A non-positive
   * day count stands for 21 days, past every band's last explicit day, so
   * the multiplier is 1 and the index is the rounded wind factor.
   */
  function Fdi(temperature: real, humidity: real, wind: real, daysRain: int, rain: real): (r: int)
    ensures daysRain <= 0 ==> r == RoundHalfEven(WindFactor(Clamp(wind, daysRain, rain).wind, BurnIndex(temperature, humidity)))
  {
    var c := Clamp(wind, daysRain, rain);
    var windFac := WindFactor(c.wind, BurnIndex(temperature, humidity));
    AdjustedByOne(windFac);
    var fdiValue := match Multiplier(c.rain, c.days)
      case Some(m) => Adjusted(windFac, m)
      case None => 0.0;
    RoundHalfEven(fdiValue)
  }

  /** Rain bands are half-open: 2.7 mm reads the [2.7, 5.3) row and 76.6 mm or more the last row. */
  lemma BandEdges(rain: real)
    requires rain >= 76.6
    ensures Multiplier(2.7, 1) == Some(0.6) && Multiplier(2.69, 1) == Some(0.7)
    ensures Multiplier(rain, 2) == Some(0.0) && Multiplier(rain, 3) == Some(0.1)
  {
  }

  /** The two calls of the function's documentation: `fdi(10, 50, 10, 1, 20)` and `fdi(40, 30, 30, 15, 5)`. */
  lemma FdiExamples()
    ensures Fdi(10.0, 50.0, 10.0, 1, 20.0) == 7
    ensures Fdi(40.0, 30.0, 30.0, 15, 5.0) == 81
  {
  }

  /**
   * A wind of 2 km/h is raised to 3 and gets bonus 5, while 2.5 km/h is kept
   * and gets bonus 0: a stronger wind yields a lower index.
   */
  lemma WindGapNotMonotone()
    ensures Fdi(10.0, 50.0, 2.0, 5, 1.0) == 28
    ensures Fdi(10.0, 50.0, 2.5, 5, 1.0) == 23
  {
  }

  /**
   * Rain today (0 days) is read as 21 days since rain, so it scores as a
   * fully dried-out day: higher than rain one day ago.
   */
  lemma RainTodayScoresAsDry()
    ensures Fdi(10.0, 50.0, 10.0, 0, 20.0) == 33
    ensures Fdi(10.0, 50.0, 10.0, 1, 20.0) == 7
  {
  }
}

=== FILE: formula.dfy ===
/**
 * The arithmetic that both variants of the Fire Danger Index share: the
 * burn index computed from temperature and humidity, and Python's built-in
 * `round`, which rounds a float to the nearest integer with ties to even.
 */
module Formula {

  /**
   * Burn index: temperature factor (temperature - 3) * 6.7 and humidity
   * factor (90 - humidity) * 2.6, combined as (burn / 2 + humidity) / 3.3
   * with burn = temperature factor - humidity factor. No input is clamped.
   * The closed form shows it is the mean of the two factors divided by 3.3.
   */
  function BurnIndex(temperature: real, humidity: real): (r: real)
    ensures r == (67.0 * (temperature - 3.0) + 26.0 * (90.0 - humidity)) / 66.0
  {
    var temperatureFactor := (temperature - 3.0) * 6.7;
    var humidityFactor := (90.0 - humidity) * 2.6;
    var burnFactor := temperatureFactor - humidityFactor;
    (burnFactor / 2.0 + humidityFactor) / 3.3
  }

  /** The burn index rises with temperature and falls with humidity. */
  lemma BurnIndexMonotone(t1: real, h1: real, t2: real, h2: real)
    requires t1 <= t2 && h2 <= h1
    ensures BurnIndex(t1, h1) <= BurnIndex(t2, h2)
  {
  }

  /** Python's `round(x)` on an exact real: nearest integer, ties to the even one. */
  function RoundHalfEven(x: real): (r: int)
    ensures x - 0.5 <= r as real <= x + 0.5
    ensures (r as real - x == 0.5 || x - r as real == 0.5) ==> r % 2 == 0
  {
    var f := x.Floor;
    var frac := x - f as real;
    if frac < 0.5 then f
    else if frac > 0.5 then f + 1
    else if f % 2 == 0 then f
    else f + 1
  }

  /** The two properties in RoundHalfEven's contract determine its result. */
  lemma RoundHalfEvenUnique(x: real, n: int)
    requires x - 0.5 <= n as real <= x + 0.5
    requires (n as real - x == 0.5 || x - n as real == 0.5) ==> n % 2 == 0
    ensures n == RoundHalfEven(x)
  {
  }

  /** Rounding is monotone. */
  lemma RoundHalfEvenMonotone(x: real, y: real)
    requires x <= y
    ensures RoundHalfEven(x) <= RoundHalfEven(y)
  {
  }

  /** Rounding leaves an integer unchanged. */
  lemma RoundHalfEvenOfInteger(n: int)
    ensures RoundHalfEven(n as real) == n
  {
  }

  /** `fdi_value`: the wind factor scaled by the rain-recovery multiplier. */
  function Adjusted(windFactor: real, multiplier: real): (fdiValue: real)
  {
    windFactor * multiplier
  }

  /** A multiplier in [0, 1] moves the wind factor towards 0 without crossing it. */
  lemma AdjustedTowardsZero(w: real, a: real)
    requires 0.0 <= a <= 1.0
    ensures w >= 0.0 ==> 0.0 <= Adjusted(w, a) <= w
    ensures w <= 0.0 ==> w <= Adjusted(w, a) <= 0.0
  {
    var b := 1.0 - a;
    assert w * a == w - w * b;
    if w >= 0.0 {
      assert 0.0 <= w * a && 0.0 <= w * b;
    } else {
      assert w * a <= 0.0 && w * b <= 0.0;
    }
  }

  /** A multiplier of 1 leaves the wind factor unchanged. */
  lemma AdjustedByOne(w: real)
    ensures Adjusted(w, 1.0) == w
  {
  }

  /** A larger wind factor under the same non-negative multiplier is not smaller. */
  lemma AdjustedMonotoneInWindFactor(w1: real, w2: real, a: real)
    requires w1 <= w2 && a >= 0.0
    ensures Adjusted(w1, a) <= Adjusted(w2, a)
  {
    assert w2 * a - w1 * a == (w2 - w1) * a;
  }

  /** A non-negative wind factor under a larger multiplier is not smaller. */
  lemma AdjustedMonotoneInMultiplier(w: real, a1: real, a2: real)
    requires w >= 0.0 && a1 <= a2
    ensures Adjusted(w, a1) <= Adjusted(w, a2)
  {
    assert w * a2 - w * a1 == w * (a2 - a1);
  }

  /** A non-positive wind factor under a larger multiplier is not larger. */
  lemma AdjustedAntitoneInMultiplier(w: real, a1: real, a2: real)
    requires w <= 0.0 && a1 <= a2
    ensures Adjusted(w, a2) <= Adjusted(w, a1)
  {
    assert w * a1 - w * a2 == (-w) * (a2 - a1);
  }
}

=== FILE: rain_history.dfy ===
/**
 * Reduction of an hourly rain series to "days since last rain": the part of
 * `get_days_since_last_rain` that runs after the weather archive has been
 * fetched. Each sample carries the UTC day it falls on (a day number) and its
 * rain amount in mm; the current UTC date is the parameter `today`.
 */
module RainHistory {
  import opened Wrappers

  /** One hourly observation: the UTC day it belongs to and its rain in mm. */
  datatype Sample = Sample(day: int, amount: real)

  /**
   * The triple the source returns: date of the last wet day, rain on that
   * day, and days elapsed since it (or the look-back length when dry).
   */
  datatype RainRecovery = RainRecovery(lastRainDay: Option<int>, lastRainAmount: Option<real>, daysSinceRain: int)

  /** The days that occur in the series. */
  function DaysOf(samples: seq<Sample>): (days: set<int>)
  {
    set i | 0 <= i < |samples| :: samples[i].day
  }

  /** Reference definition: the total rain recorded on day `d`. */
  function DayTotal(samples: seq<Sample>, d: int): (total: real)
  {
    if samples == [] then 0.0
    else (if samples[0].day == d then samples[0].amount else 0.0) + DayTotal(samples[1..], d)
  }

  /** A day is wet when its total is strictly positive. */
  predicate IsWet(samples: seq<Sample>, d: int)
  {
    DayTotal(samples, d) > 0.0
  }

  /** A day absent from the series has a total of zero. */
  lemma {:induction false} DayTotalAbsent(samples: seq<Sample>, d: int)
    requires d !in DaysOf(samples)
    ensures DayTotal(samples, d) == 0.0
  {
    if samples != [] {
      assert DaysOf(samples[1..]) <= DaysOf(samples) by {
        forall e | e in DaysOf(samples[1..]) ensures e in DaysOf(samples) {
          var i :| 0 <= i < |samples[1..]| && samples[1..][i].day == e;
          assert samples[i + 1].day == e;
        }
      }
      DayTotalAbsent(samples[1..], d);
    }
  }

  /**
   * Resampling to daily sums: one entry per day present in the series,
   * holding that day's total.
   */
  function Resample(samples: seq<Sample>): (totals: map<int, real>)
    ensures totals.Keys == DaysOf(samples)
    ensures forall d :: d in totals ==> totals[d] == DayTotal(samples, d)
  {
    if samples == [] then map[]
    else
      var rest := Resample(samples[1..]);
      var s := samples[0];
      assert DaysOf(samples) == {s.day} + DaysOf(samples[1..]) by {
        forall e | e in DaysOf(samples) ensures e in {s.day} + DaysOf(samples[1..]) {
          var i :| 0 <= i < |samples| && samples[i].day == e;
          if i > 0 { assert samples[1..][i - 1].day == e; }
        }
        forall e | e in DaysOf(samples[1..]) ensures e in DaysOf(samples) {
          var i :| 0 <= i < |samples[1..]| && samples[1..][i].day == e;
          assert samples[i + 1].day == e;
        }
      }
      if s.day in rest then rest[s.day := s.amount + rest[s.day]]
      else
        DayTotalAbsent(samples[1..], s.day);
        rest[s.day := s.amount]
  }

  /** The latest day among `days` whose daily total is positive, if any. */
  function LatestWetDay(days: seq<int>, totals: map<int, real>): (r: Option<int>)
    ensures r.None? <==> forall i :: 0 <= i < |days| ==> !(days[i] in totals && totals[days[i]] > 0.0)
    ensures r.Some? ==> r.value in days && r.value in totals && totals[r.value] > 0.0
    ensures r.Some? ==> forall i :: 0 <= i < |days| && days[i] in totals && totals[days[i]] > 0.0 ==> days[i] <= r.value
  {
    if days == [] then None
    else
      var later := LatestWetDay(days[1..], totals);
      var d := days[0];
      if d in totals && totals[d] > 0.0 then
        if later.Some? && later.value > d then later else Some(d)
      else later
  }

  /** The days of the series, in order. */
  function SampleDays(samples: seq<Sample>): (days: seq<int>)
    ensures |days| == |samples|
    ensures forall i :: 0 <= i < |samples| ==> days[i] == samples[i].day
  {
    seq(|samples|, i requires 0 <= i < |samples| => samples[i].day)
  }

  /**
   * `get_days_since_last_rain` after the fetch: sum per day, keep the wet
   * days, and report the latest one, its total and the days elapsed since
   * it; a dry series reports the look-back length and no day or amount.
   */
  function DaysSinceLastRain(samples: seq<Sample>, lookbackDays: int, today: int): (r: RainRecovery)
    ensures r.lastRainDay.None? <==> forall d :: !IsWet(samples, d)
    ensures r.lastRainDay.None? ==> r == RainRecovery(None, None, lookbackDays)
    ensures r.lastRainDay.Some? ==>
      var d := r.lastRainDay.value;
      && IsWet(samples, d)
      && r.lastRainAmount == Some(DayTotal(samples, d))
      && r.daysSinceRain == today - d
      && forall e :: IsWet(samples, e) ==> e <= d
  {
    var totals := Resample(samples);
    var days := SampleDays(samples);
    var latest := LatestWetDay(days, totals);
    assert forall e :: IsWet(samples, e) ==> exists i :: 0 <= i < |days| && days[i] == e by {
      forall e | IsWet(samples, e) ensures exists i :: 0 <= i < |days| && days[i] == e {
        if e !in DaysOf(samples) { DayTotalAbsent(samples, e); }
        var i :| 0 <= i < |samples| && samples[i].day == e;
        assert days[i] == e;
      }
    }
    match latest
    case None => RainRecovery(None, None, lookbackDays)
    case Some(d) =>
      assert IsWet(samples, d);
      RainRecovery(Some(d), Some(totals[d]), today - d)
  }

  /** Amounts that are all zero or less add up to a total of zero or less. */
  lemma {:induction false} DayTotalNonPositive(samples: seq<Sample>, d: int)
    requires forall i :: 0 <= i < |samples| ==> samples[i].amount <= 0.0
    ensures DayTotal(samples, d) <= 0.0
  {
    if samples != [] {
      DayTotalNonPositive(samples[1..], d);
    }
  }

  /** A dry window (every hourly amount zero) reports no rain and the look-back length. */
  lemma DryWindow(samples: seq<Sample>, lookbackDays: int, today: int)
    requires forall i :: 0 <= i < |samples| ==> samples[i].amount == 0.0
    ensures DaysSinceLastRain(samples, lookbackDays, today) == RainRecovery(None, None, lookbackDays)
  {
    forall d ensures !IsWet(samples, d) {
      DayTotalNonPositive(samples, d);
    }
  }

  /**
   * When every sample is dated no later than today, the reported number of
   * days since rain is never negative; it is 0 when the last rain fell today.
   */
  lemma DaysSinceRainNonNegative(samples: seq<Sample>, lookbackDays: int, today: int)
    requires forall i :: 0 <= i < |samples| ==> samples[i].day <= today
    requires lookbackDays >= 0
    ensures DaysSinceLastRain(samples, lookbackDays, today).daysSinceRain >= 0
  {
    var r := DaysSinceLastRain(samples, lookbackDays, today);
    if r.lastRainDay.Some? {
      var d := r.lastRainDay.value;
      if d !in DaysOf(samples) { DayTotalAbsent(samples, d); }
    }
  }

  /** Rain that fell on exactly one day `d` is reported with its total and `today - d`. */
  lemma SingleWetDay(samples: seq<Sample>, d: int, lookbackDays: int, today: int)
    requires forall i :: 0 <= i < |samples| && samples[i].day != d ==> samples[i].amount == 0.0
    requires DayTotal(samples, d) > 0.0
    ensures DaysSinceLastRain(samples, lookbackDays, today) == RainRecovery(Some(d), Some(DayTotal(samples, d)), today - d)
  {
    forall e | e != d ensures !IsWet(samples, e) {
      DayTotalOtherDays(samples, d, e);
    }
    var r := DaysSinceLastRain(samples, lookbackDays, today);
    assert IsWet(samples, d);
    assert r.lastRainDay.value == d;
  }

  /** Days whose samples are all dry total zero. */
  lemma {:induction false} DayTotalOtherDays(samples: seq<Sample>, d: int, e: int)
    requires forall i :: 0 <= i < |samples| && samples[i].day != d ==> samples[i].amount == 0.0
    requires e != d
    ensures DayTotal(samples, e) == 0.0
  {
    if samples != [] {
      DayTotalOtherDays(samples[1..], d, e);
    }
  }
}

=== FILE: variants.dfy ===
/**
 * How the two hand-written variants of the Fire Danger Index relate: where
 * they agree (wind over non-negative speeds, the multiplier for positive
 * rain and at least one day since rain, hence the whole index) and where
 * they differ: negative winds in `wind_factor`, which neither `fdi` passes
 * on, and the two input clamps of `fire_danger_index.py` (days <= 0, and
 * winds strictly between 2 and 3) that break monotonicity there.
 */
module Variants {
  import opened Wrappers
  import opened Formula
  import FireDangerIndex
  import Fdi

  /** For every non-negative wind, the if/elif staircase equals the threshold search. */
  lemma WindFactorsAgree(wind: real, burnIndex: real)
    requires wind >= 0.0
    ensures FireDangerIndex.WindFactor(wind, burnIndex) == Fdi.WindFactor(wind, burnIndex)
  {
  }

  /** A negative wind falls through to +40 in the cascade but is below the first threshold (+0) in the table. */
  lemma NegativeWindDiffers(wind: real, burnIndex: real)
    requires wind < 0.0
    ensures FireDangerIndex.WindFactor(wind, burnIndex) == burnIndex + 40.0
    ensures Fdi.WindFactor(wind, burnIndex) == burnIndex
  {
  }

  /** In band `k`, the cascade's branch reads the same multiplier as the table's row. */
  lemma MultiplierInBand(rain: real, days: int, k: nat)
    requires rain > 0.0 && days >= 1
    requires k < |Fdi.Bands| && Fdi.InBand(Fdi.Bands[k], rain)
    ensures var f := Fdi.Bands[k].factors;
      FireDangerIndex.Multiplier(rain, days) == Some(f[Fdi.Min(days - 1, |f| - 1)])
  {
    if k < 6 { MultiplierInLightBands(rain, days, k); }
    else if k < 9 { MultiplierInMediumBands(rain, days, k); }
    else if k < 11 { MultiplierInHeavyBands(rain, days, k); }
    else { MultiplierInHeaviestBands(rain, days, k); }
  }

  /** `MultiplierInBand` for the bands below 15.4 mm. */
  lemma MultiplierInLightBands(rain: real, days: int, k: nat)
    requires rain > 0.0 && days >= 1
    requires 0 <= k < 6 && Fdi.InBand(Fdi.Bands[k], rain)
    ensures var f := Fdi.Bands[k].factors;
      FireDangerIndex.Multiplier(rain, days) == Some(f[Fdi.Min(days - 1, |f| - 1)])
  {
  }

  /** `MultiplierInBand` for the bands from 15.4 mm to 38.5 mm. */
  lemma MultiplierInMediumBands(rain: real, days: int, k: nat)
    requires rain > 0.0 && days >= 1
    requires 6 <= k < 9 && Fdi.InBand(Fdi.Bands[k], rain)
    ensures var f := Fdi.Bands[k].factors;
      FireDangerIndex.Multiplier(rain, days) == Some(f[Fdi.Min(days - 1, |f| - 1)])
  {
  }

  /** `MultiplierInBand` for the bands from 38.5 mm to 63.9 mm. */
  lemma MultiplierInHeavyBands(rain: real, days: int, k: nat)
    requires rain > 0.0 && days >= 1
    requires 9 <= k < 11 && Fdi.InBand(Fdi.Bands[k], rain)
    ensures var f := Fdi.Bands[k].factors;
      FireDangerIndex.Multiplier(rain, days) == Some(f[Fdi.Min(days - 1, |f| - 1)])
  {
  }

  /** `MultiplierInBand` for the bands from 63.9 mm up. */
  lemma MultiplierInHeaviestBands(rain: real, days: int, k: nat)
    requires rain > 0.0 && days >= 1
    requires 11 <= k < 13 && Fdi.InBand(Fdi.Bands[k], rain)
    ensures var f := Fdi.Bands[k].factors;
      FireDangerIndex.Multiplier(rain, days) == Some(f[Fdi.Min(days - 1, |f| - 1)])
  {
  }

  /**
   * For positive rain and at least one day since rain, the cascade's
   * multiplier equals `get_adjustment_factor`.
   */
  lemma MultipliersAgree(rain: real, days: int)
    requires rain > 0.0 && days >= 1
    ensures FireDangerIndex.Multiplier(rain, days) == Fdi.AdjustmentFactor(rain, days)
  {
    var k := Fdi.BandContaining(rain);
    MultiplierInBand(rain, days, k);
    Fdi.AdjustmentInBand(rain, days, k);
  }

  /** For positive rain, the cascade's multiplier never decreases as days since rain grow. */
  lemma CascadeMultiplierMonotone(rain: real, d1: int, d2: int)
    requires rain > 0.0 && 1 <= d1 <= d2
    ensures FireDangerIndex.Multiplier(rain, d1).value <= FireDangerIndex.Multiplier(rain, d2).value
  {
    MultipliersAgree(rain, d1);
    MultipliersAgree(rain, d2);
    Fdi.AdjustmentMonotoneInDays(rain, d1, d2);
  }

  /** Past its band's last explicit day the cascade's multiplier is 1 (full recovery). */
  lemma CascadeMultiplierPlateau(rain: real, days: int, k: nat)
    requires rain > 0.0
    requires k < |Fdi.Bands| && Fdi.InBand(Fdi.Bands[k], rain)
    requires days >= |Fdi.Bands[k].factors|
    ensures FireDangerIndex.Multiplier(rain, days) == Some(1.0)
  {
    Fdi.TableWellFormed();
    MultipliersAgree(rain, days);
    Fdi.AdjustmentPlateau(rain, days, k);
  }

  /**
   * Rain in (0, 1) is kept by the cascade and raised to 1 by the table, but
   * both lie in the first band, so the multiplier is the same.
   */
  lemma ClampedRainSameMultiplier(rain: real, days: int)
    requires days >= 1
    ensures FireDangerIndex.Multiplier(FireDangerIndex.Clamp(0.0, days, rain).rain, days)
         == Fdi.AdjustmentFactor(Fdi.Clamp(0.0, days, rain).rain, days)
  {
    var r1, r2 := FireDangerIndex.Clamp(0.0, days, rain).rain, Fdi.Clamp(0.0, days, rain).rain;
    MultipliersAgree(r1, days);
    if r1 != r2 {
      Fdi.AdjustmentInBand(r1, days, 0);
      Fdi.AdjustmentInBand(r2, days, 0);
    }
  }

  /**
   * The two variants give the same index whenever the days since rain are
   * at least 1 and the wind is not strictly between 2 and 3 km/h.
   */
  lemma FdiVariantsAgree(temperature: real, humidity: real, wind: real, daysRain: int, rain: real)
    requires daysRain >= 1
    requires wind <= 2.0 || wind >= 3.0
    ensures FireDangerIndex.Fdi(temperature, humidity, wind, daysRain, rain) == Fdi.Fdi(temperature, humidity, wind, daysRain, rain)
  {
    var cc, ct := FireDangerIndex.Clamp(wind, daysRain, rain), Fdi.Clamp(wind, daysRain, rain);
    var b := BurnIndex(temperature, humidity);
    assert cc.wind == ct.wind && cc.days == ct.days == daysRain;
    WindFactorsAgree(cc.wind, b);
    ClampedRainSameMultiplier(rain, daysRain);
    assert FireDangerIndex.Clamp(0.0, daysRain, rain).rain == cc.rain;
    assert Fdi.Clamp(0.0, daysRain, rain).rain == ct.rain;
    Fdi.FdiUnfold(temperature, humidity, wind, daysRain, rain);
  }

  /**
   * A day count of 0 or less (rain today) is read as 21 days by the cascade
   * and as 1 day by the table.
   */
  lemma NonPositiveDaysDiffer(temperature: real, humidity: real, wind: real, daysRain: int, rain: real)
    requires daysRain <= 0
    requires wind <= 2.0 || wind >= 3.0
    ensures FireDangerIndex.Fdi(temperature, humidity, wind, daysRain, rain) == Fdi.Fdi(temperature, humidity, wind, 21, rain)
    ensures Fdi.Fdi(temperature, humidity, wind, daysRain, rain) == Fdi.Fdi(temperature, humidity, wind, 1, rain)
  {
    FdiVariantsAgree(temperature, humidity, wind, 21, rain);
    assert FireDangerIndex.Clamp(wind, daysRain, rain) == FireDangerIndex.Clamp(wind, 21, rain);
    assert Fdi.Clamp(wind, daysRain, rain) == Fdi.Clamp(wind, 1, rain);
  }

  /**
   * A wind strictly between 2 and 3 km/h gets no bonus in the cascade, while
   * the table raises it to 3 km/h (bonus 5): there the cascade's index never
   * exceeds the table's.
   */
  lemma WindGapDiffers(temperature: real, humidity: real, wind: real, daysRain: int, rain: real)
    requires 2.0 < wind < 3.0 && daysRain >= 1
    ensures Fdi.Fdi(temperature, humidity, wind, daysRain, rain) == FireDangerIndex.Fdi(temperature, humidity, 3.0, daysRain, rain)
    ensures FireDangerIndex.Fdi(temperature, humidity, wind, daysRain, rain) <= Fdi.Fdi(temperature, humidity, wind, daysRain, rain)
  {
    FdiVariantsAgree(temperature, humidity, 3.0, daysRain, rain);
    assert Fdi.Clamp(wind, daysRain, rain) == Fdi.Clamp(3.0, daysRain, rain);
    var c := FireDangerIndex.Clamp(wind, daysRain, rain);
    var b := BurnIndex(temperature, humidity);
    var m := FireDangerIndex.Multiplier(c.rain, c.days).value;
    assert c.rain == FireDangerIndex.Clamp(3.0, daysRain, rain).rain;
    AdjustedMonotoneInWindFactor(FireDangerIndex.WindFactor(c.wind, b), FireDangerIndex.WindFactor(3.0, b), m);
    RoundHalfEvenMonotone(Adjusted(FireDangerIndex.WindFactor(c.wind, b), m), Adjusted(FireDangerIndex.WindFactor(3.0, b), m));
  }
}

=== FILE: wrappers.dfy ===
/** Optional values: Python's `None` or a value. */
module Wrappers {
  datatype Option<+T> = None | Some(value: T)
}
